=== FILE: README.md ===
# AI event curator: search endpoint and search page

The application is a single search page for local events in Bengaluru. A
visitor types a query or dictates it. The page posts the trimmed query to
`POST /api/search`. That handler sends the query and the whole event catalog
to a hosted language model. It reads the model's free-text answer as a JSON
array of event ids, and anything else becomes `[]`. The page keeps the
catalog events whose id came back, in catalog order. It then shows a results
grid, an empty state or an error banner.

This Dafny project models that core:

- `wrappers.dfy` holds `Option`.
- `json.dfy` holds JSON values as the handler and the page see them after
  `JSON.parse`, member lookup with the last duplicate key winning, and arrays
  of strings.
- `text.dfy` holds JavaScript's `String.prototype.trim`, with its exact set of
  whitespace and line-terminator code points. It also holds decimal rendering
  of counts, `Array.prototype.join` and `String.prototype.includes`.
- `search_route.dfy` holds the handler in three parts:
  - the request gate: a readable body, a non-blank string query, then the API
    key;
  - the bracket extraction `/\[.*\]/s`, proved equal to the leftmost-greedy
    regex match;
  - the all-or-nothing sanitiser, the error mapping to the fixed 500, and the
    order of the handler's external effects.
- `catalog.dfy` holds the catalog records and `EVENTS.filter((e) =>
  ids.includes(e.id))`.
- `event_card.dfy` holds the text an event card derives: the venue with its
  "(+N more)" suffix, the date range and the times.
- `search_page.dfy` holds the page as a class whose fields are the page's
  `useState` variables. `performSearch` is split at its `await` into
  `BeginSearch` and `CompleteSearch`. The class also holds the display
  conditions and the voice-input handlers `onresult` and `onerror`. The
  module holds, outside the class, the decoding of the endpoint's reply, the
  result-count label, the microphone error messages and the transcript.
- `search_flow.dfy` composes the page with the handler. A search from the page
  ends in the error banner exactly when the handler failed. A malformed model
  answer ends in the empty state.

The handler's I/O appears as parameters: the events file text, the chat
completion, `JSON.parse` and the environment's API key. The handler itself is
a pure function. It returns the response and the list of external calls it
made. The page's `fetch` is a function from the query to the reply.

A non-OK reply makes the page throw `new Error(data.error || 'Search
failed')`. The `catch` block replaces that message with the fixed "Something
went wrong. Please try again.", so the model keeps only the fixed message.
When `data.ids` is a string, `ids.includes(e.id)` is a substring test on that
string and not an element test. The model follows the code here. Any other
non-null `ids` that is not an array (a number, a boolean or an object) has no
`includes`. Calling it throws, and the page shows the error, but only if the
catalog has an event: `filter` on an empty catalog never calls its callback.
A `null` body always throws when `data.ids` is read.

## Model

| member | source | states |
|---|---|---|
| Json.LookupFindsLastMember | app/api/search/route.ts:18-19 | `Lookup`, reading a property of a parsed object, finds nothing iff no member has that key, and otherwise yields the value of the last member with that key |
| Json.LookupLastMember | app/api/search/route.ts:18-19 | `Lookup` yields the value of the member with the key that no later member shares |
| Json.FromStrings | app/api/search/route.ts:110-111 | a list of ids becomes a JSON array of strings of the same length |
| Json.StringsOf | app/api/search/route.ts:110-111 | the ids read out of a JSON array of strings rebuild exactly that array |
| Text.TrimStartIsSuffix | app/api/search/route.ts:19 | removing leading whitespace leaves a suffix, removes only whitespace, and leaves no whitespace at the front |
| Text.TrimEndIsPrefix | app/api/search/route.ts:19 | removing trailing whitespace leaves a prefix, removes only whitespace, and leaves no whitespace at the back |
| Text.TrimIsSlice | app/api/search/route.ts:19 | `Trim`, that is `trim()`, returns a contiguous slice of its input with only whitespace cut off on either side |
| Text.TrimEndsNotWhitespace | app/api/search/route.ts:19 | a trimmed string is empty or starts and ends with a character that is not whitespace |
| Text.BlankIffAllWhitespace | app/page.tsx:92-93 | a query trims to the empty string exactly when every character of it is whitespace |
| Text.TrimIdempotent | app/page.tsx:92 | trimming twice is trimming once, so the route's trim of the page's already trimmed query changes nothing |
| Text.TrimmedNonEmptyIsNotBlank | app/page.tsx:92-93 | a non-empty trimmed string is not blank |
| Text.DigitChar | app/page.tsx:257 | the character for a digit is a decimal digit with that value |
| Text.Decimal | app/page.tsx:257 | a number's decimal rendering is a non-empty string of digits |
| Text.DecimalRoundTrip | app/page.tsx:257 | reading the decimal rendering of a count back gives the count |
| Text.JoinAppend | app/page.tsx:69 | `Join` on one more string appends the separator and that string |
| Text.JoinEmptySeparatorIsConcat | app/page.tsx:148-150 | `Join` with separator `''` is plain concatenation |
| Text.ContainsIffOccurs | app/page.tsx:113 | `Contains`, that is `String.prototype.includes`, holds exactly when the needle occurs at some index of the string |
| SearchRoute.FirstIndex | app/api/search/route.ts:106 | finds the first occurrence of a character, or reports that there is none |
| SearchRoute.LastIndex | app/api/search/route.ts:106 | finds the last occurrence of a character, or reports that there is none |
| SearchRoute.ExtractCandidate | app/api/search/route.ts:106-107 | the parsed candidate is never longer than the model's text |
| SearchRoute.ExtractCandidateIsRegexMatch | app/api/search/route.ts:106-107 | when `/\[.*\]/s` matches, the candidate is its leftmost-start, greedy match; when it does not match, the candidate is the whole text |
| SearchRoute.EmbeddedArrayExtracted | app/api/search/route.ts:105-107 | an array wrapped in prose with no brackets yields exactly the bracketed part, newlines included |
| SearchRoute.Sanitize | app/api/search/route.ts:101-118 | the ids are either `[]` or exactly what the parser produced from the candidate; a parsed array of strings is always taken whole |
| SearchRoute.NonStringElementRejected | app/api/search/route.ts:110-114 | one element that is not a string discards the whole array |
| SearchRoute.FailsClosed | app/api/search/route.ts:109-118 | text that does not parse, or parses to anything but an array of strings, yields `[]` |
| SearchRoute.AcceptedIdsUnchanged | app/api/search/route.ts:110-111 | an accepted array comes back unchanged, with order and duplicates kept and no catalog check |
| SearchRoute.ChattyPreambleExample | app/api/search/route.ts:105-111 | a quoted id array after a conversational preamble is recovered |
| SearchRoute.UnquotedTokensExample | app/api/search/route.ts:109-117 | a bracketed list of bare words is not valid JSON and yields `[]` |
| SearchRoute.CheckRequest | app/api/search/route.ts:17-33 | an admitted query is non-empty and already trimmed, and the key is set; a refusal is 400 with the missing-query message or 500 with the key or generic message |
| SearchRoute.Answer | app/api/search/route.ts:35-126 | the file is read first and the model is called only once the file is read, with the prompt for the trimmed query; a 200 carries ids iff both calls succeeded, and any failure is the generic 500 |
| SearchRoute.QueryBodyReadsBack | app/page.tsx:103 | the body `{ query }` the page sends reads back as that query string |
| SearchRoute.QueryReadsLastMember | app/api/search/route.ts:18-19 | `QueryOf`, that is `body.query?.trim()`, reads the last `query` member: a string is the query, `null` counts as absent, and any other value throws |
| SearchRoute.UserPromptLayout | app/api/search/route.ts:41-47 | `UserPrompt` holds the trimmed query verbatim after the "User query:" heading and the events file verbatim before the final newline |
| SearchRoute.UserPromptSeparates | app/api/search/route.ts:41-47 | with the same events file, different queries give different prompts, and with the same query different files do |
| SearchRoute.OnlyFirstChoiceCounts | app/api/search/route.ts:101 | `ContentOf` reads only the first choice and is its content when there is one |
| SearchRoute.GateAdmits | app/api/search/route.ts:18-33 | the gate admits exactly a readable body whose query is a string that is not all whitespace, with a non-empty key, and passes on the trimmed query |
| SearchRoute.QueryAdmitted | app/api/search/route.ts:19-33 | any body whose query is not all whitespace is admitted, with the trimmed query, when the key is set |
| SearchRoute.BlankQueryRejected | app/api/search/route.ts:19-26 | any body whose query is blank is a 400 "Missing \"query\"" whatever the key, with no file read and no model call |
| SearchRoute.MissingQueryRejected | app/api/search/route.ts:18-26 | any body with no `query`, or a `null` one, is the 400 "Missing \"query\"" whatever the key, with no file read and no model call |
| SearchRoute.NonObjectBodyHasNoQuery | app/api/search/route.ts:18-19 | a body that is an array, string, number or boolean has no `query`, so it gets that 400 |
| SearchRoute.NonStringQueryFails | app/api/search/route.ts:19 | a `query` that is not a string makes `trim` throw, and the outer `catch` answers the 500 "Internal server error." whatever the key, with nothing read or called |
| SearchRoute.MissingKeyRejected | app/api/search/route.ts:28-33 | for any body with a real query, a missing or empty key is a 500 naming the key, with no file read and no model call |
| SearchRoute.AnsweredModelYieldsIds | app/api/search/route.ts:35-120 | for any body with a real query, once the model has answered the reply is 200 with the sanitised ids, after reading the file and one model call with the trimmed query |
| SearchRoute.InternalFailures | app/api/search/route.ts:121-126 | for any body with a real query, a failure reading the events file or calling the model is the 500 "Internal server error." |
| SearchRoute.UnreadableBodyFails | app/api/search/route.ts:17-19 | a body that cannot be parsed, or a `null` body, is the generic 500 with nothing read or called |
| SearchRoute.NoChoiceYieldsNoIds | app/api/search/route.ts:101-118 | a completion with no choices, or whose first choice has no content, gives `''` as content and so `[]` |
| SearchRoute.Post | app/api/search/route.ts:16-128 | every response is 200 with ids, 400 with the missing-query message, or 500 with the key or the generic message; nothing external happens iff the gate refuses; a 200 has read the file and called the model |
| SearchRoute.EffectsInOrder | app/api/search/route.ts:35-99 | at most two external calls: the events file first, then the model, with the prompt built from the trimmed query |
| Catalog.Select | app/page.tsx:113 | the filter keeps exactly the catalog events whose id passes and is never longer than the catalog |
| Catalog.SelectIsSubsequence | app/page.tsx:113 | the filter's result is a subsequence of the catalog, in catalog order |
| Catalog.SelectExtensional | app/page.tsx:113 | two tests that agree on every catalog id select the same events |
| Catalog.ResolveIsCatalogFilter | app/page.tsx:112-113 | `Resolve`, the page's filter, gives a catalog subsequence holding exactly the catalog events whose id was returned |
| Catalog.ResolveDependsOnlyOnKnownIds | app/page.tsx:112-113 | order, repetition and unknown ids in the returned list do not change the matched events |
| Catalog.SelectKeepsIdsUnique | app/page.tsx:113 | with unique catalog ids the matched events have unique ids, however often an id repeats |
| Catalog.ResolveRoundTrip | app/page.tsx:112-113 | resolving known ids and reading back the ids of the matched events gives the same set of ids, each once |
| Catalog.ResolveAllAndNone | app/page.tsx:112-113 | returning every catalog id shows the whole catalog; returning none shows nothing |
| EventCard.MoreShowsSuffix | app/page.tsx:36-55 | the "(+N more)" suffix is absent for one show; otherwise it has that shape and N reads back as one less than the number of shows |
| EventCard.VenueText | app/page.tsx:35-56 | the venue line is the first show's venue followed by the " (+N more)" suffix of `MoreShowsSuffix`, and is exactly that venue iff there is one show |
| EventCard.DateLeReflexive | app/page.tsx:63 | every date string is ordered before or equal to itself |
| EventCard.DateLeTransitive | app/page.tsx:63 | the date order is transitive |
| EventCard.InDateOrderBetween | app/page.tsx:63 | in a date-ordered list of shows, an earlier show's date is ordered before a later show's date |
| EventCard.DateRangeCoversShows | app/page.tsx:62-63 | `DateText` is the first date alone for one show and first, en dash, last otherwise; for date-ordered shows that range covers every show |
| EventCard.TimesTextAppend | app/page.tsx:69 | `TimesText` of a show with one more time is the previous line, ", " and the new time |
| SearchPage.SearchOutcome | app/page.tsx:99-117 | a reply yields events iff the fetch and body decoding succeeded, the status is OK, `data` is not null, and `ids` has `includes` or the catalog is empty; the events are a catalog subsequence |
| SearchPage.NullDataFails | app/page.tsx:106-112 | a `null` body is an error whatever the status and catalog |
| SearchPage.UnsearchableIdsFailOnlyWithEvents | app/page.tsx:112-113 | `IdsOf` finds an `ids` that is a number, boolean or object; the search fails with at least one catalog event and shows nothing with an empty catalog |
| SearchPage.IdsTextMatchesSubstrings | app/page.tsx:112-113 | `IdsOf` finds an `ids` that is a string; the page shows, in catalog order, exactly the events whose id occurs somewhere in it |
| SearchPage.IdsReplyResolves | app/page.tsx:106-113 | an OK reply `{ ids }` shows exactly the catalog events with those ids, in catalog order |
| SearchPage.MissingIdsShowsNothing | app/page.tsx:112-113 | an OK reply without `ids`, or with `ids: null`, shows no events and is no error |
| SearchPage.MicErrorMessagesDistinct | app/page.tsx:154-161 | `MicErrorMessage` gives the permission message iff the code is "permission-denied", the no-speech message iff "no-speech", and the generic message for every other code |
| SearchPage.FirstAlternatives | app/page.tsx:148-149 | one transcript piece per recognition result |
| SearchPage.TranscriptConcatenates | app/page.tsx:148-150 | `Transcript` is the first alternatives run together; one more result appends its first alternative |
| SearchPage.CountLabel | app/page.tsx:257 | the label starts "Found ", its digits read back to the count, and it ends in "s" iff the count is not 1 |
| SearchPage.Page.constructor | app/page.tsx:82-88 | the initial state is empty, not loading, not searched, with no error, not listening and no microphone error |
| SearchPage.Page.BeginSearch | app/page.tsx:91-104 | a blank query sends nothing and changes nothing; otherwise loading starts, the error clears, the search is remembered and the trimmed query is sent |
| SearchPage.Page.CompleteSearch | app/page.tsx:106-120 | a usable reply stores the matched events; every failure stores the fixed error and no events; loading stops either way |
| SearchPage.Page.PerformSearch | app/page.tsx:91-121 | the whole `performSearch`: a blank query is a no-op; otherwise loading has stopped and the page holds either the outcome's events or the error, keeping the page invariant |
| SearchPage.Page.Submit | app/page.tsx:123-126 | submitting searches the text in the search box |
| SearchPage.Page.OnSpeechResult | app/page.tsx:147-153 | the transcript becomes the search box text and is searched |
| SearchPage.Page.OnSpeechError | app/page.tsx:154-163 | the message for the error code is shown and listening stops |
| SearchPage.Page.DisplayStates | app/page.tsx:242-270 | results and the empty state never show together or beside the error; nothing shows before the first search; after one, exactly one of the three shows |
| SearchFlow.RouteAnswer | app/api/search/route.ts:19-126 | for the page's trimmed query the handler answers 200 with the sanitised ids when the model answered, and an error status otherwise |
| SearchFlow.PageAgainstRoute | app/page.tsx:99-117 | a search against the handler shows the catalog events named by the sanitised answer when the model answered, and ends in the error otherwise |
| SearchFlow.MalformedAnswerShowsEmptyState | app/api/search/route.ts:115-118 | a model answer that is not a string array leaves the page in its empty state, not its error state |
| SearchFlow.SearchThroughRoute | app/page.tsx:91-121 | after a search through the handler the error banner shows iff the model did not answer, and otherwise the page shows the resolved sanitised ids |

## Left out

- The language-model call: model choice, the 25-rule system prompt, temperature and token limit. The completion is a parameter, and only its first choice's content is used.
- `JSON.parse`: it is a parameter. Every property holds for every parser; the example lemmas name the one parse result they need.
- Reading events.json, `fetch`, `NextResponse`, `process.env` and `console.error`: their results are parameters, and logging is not modelled.
- The module-level construction of the chat client (app/api/search/route.ts:8-10) is assumed to have succeeded. If the SDK's constructor refuses an undefined key, the handler never runs with `GROQ_API_KEY` unset. A `None` key then stands for a setup the running handler never sees, and the key refusal of SearchRoute.MissingKeyRejected is reachable only with an empty key. The same holds for the "whatever the key" of SearchRoute.BlankQueryRejected for a `None` key.
- app/api/transcribe/route.ts is not part of this model.
- The speech-recognition lifecycle (`handleMicClick`, `onstart`, `onend`, start and stop, unsupported-browser and failed-start messages): it is browser state; only `onresult` and `onerror` are modelled.
- `formatDate`: locale-dependent date formatting is a parameter of `EventCard.DateText`.
- JSX layout, styling and the price line of the card.
- Overlapping searches and React's batched state updates: each search runs to completion before the next.
- Strings are sequences of Unicode code points, not UTF-16 code units; `trim` is exact for every character outside the surrogate range.

=== FILE: catalog.dfy ===
/** The fixed event catalog (events.json, imported by the page as `EVENTS`)
    and the way the page resolves a list of ids against it. */
module Catalog {

  /** One dated occurrence of an event. Dates are ISO `YYYY-MM-DD` strings. */
  datatype Show = Show(date: string, venue: string, times: seq<string>)

  datatype Event = Event(
    id: string,
    cat: string,
    title: string,
    lang: string,
    age: string,
    price: int,
    shows: seq<Show>)

  function Ids(events: seq<Event>): seq<string> {
    seq(|events|, k requires 0 <= k < |events| => events[k].id)
  }

  /** Catalog ids are unique. */
  predicate UniqueIds(events: seq<Event>) {
    forall i, j :: 0 <= i < j < |events| ==> events[i].id != events[j].id
  }

  /** `xs` is `ys` with some elements left out, the rest kept in order. */
  ghost predicate IsSubsequence<T>(xs: seq<T>, ys: seq<T>)
    decreases |ys|
  {
    xs == []
    || (ys != []
        && ((xs[0] == ys[0] && IsSubsequence(xs[1..], ys[1..])) || IsSubsequence(xs, ys[1..])))
  }

  /** `catalog.filter((e) => keep(e.id))`: the events whose id passes, in
      catalog order. */
  function Select(catalog: seq<Event>, keep: string -> bool): (r: seq<Event>)
    ensures |r| <= |catalog|
    ensures forall e :: e in r <==> e in catalog && keep(e.id)
  {
    if catalog == [] then []
    else (if keep(catalog[0].id) then [catalog[0]] else []) + Select(catalog[1..], keep)
  }

  /** The catalog events whose id is among the returned ids, in catalog order
      (`EVENTS.filter((e) => ids.includes(e.id))`). */
  function Resolve(catalog: seq<Event>, ids: seq<string>): seq<Event> {
    Select(catalog, id => id in ids)
  }

  lemma {:induction false} SelectIsSubsequence(catalog: seq<Event>, keep: string -> bool)
    ensures IsSubsequence(Select(catalog, keep), catalog)
  {
    if catalog != [] {
      SelectIsSubsequence(catalog[1..], keep);
      var rest := Select(catalog[1..], keep);
      if keep(catalog[0].id) {
        assert Select(catalog, keep) == [catalog[0]] + rest;
        assert ([catalog[0]] + rest)[1..] == rest;
      } else {
        assert Select(catalog, keep) == rest;
      }
    }
  }

  /** Two tests that agree on every catalog id select the same events. */
  lemma {:induction false} SelectExtensional(catalog: seq<Event>, keep1: string -> bool, keep2: string -> bool)
    requires forall e :: e in catalog ==> keep1(e.id) == keep2(e.id)
    ensures Select(catalog, keep1) == Select(catalog, keep2)
  {
    if catalog != [] {
      assert catalog[0] in catalog;
      assert forall e :: e in catalog[1..] ==> e in catalog;
      SelectExtensional(catalog[1..], keep1, keep2);
    }
  }

  /** Resolution is a filter of the catalog: a subsequence, in catalog order,
      holding exactly the catalog events whose id was returned, and never
      longer than the catalog. */
  lemma ResolveIsCatalogFilter(catalog: seq<Event>, ids: seq<string>)
    ensures IsSubsequence(Resolve(catalog, ids), catalog)
    ensures forall e :: e in Resolve(catalog, ids) <==> e in catalog && e.id in ids
    ensures |Resolve(catalog, ids)| <= |catalog|
  {
    SelectIsSubsequence(catalog, id => id in ids);
  }

  /** Only the set of returned ids matters: their order and repetitions do
      not, and ids no event has are dropped without effect. */
  lemma ResolveDependsOnlyOnKnownIds(catalog: seq<Event>, ids1: seq<string>, ids2: seq<string>)
    requires forall x :: x in Ids(catalog) ==> (x in ids1 <==> x in ids2)
    ensures Resolve(catalog, ids1) == Resolve(catalog, ids2)
  {
    forall e | e in catalog ensures (e.id in ids1) == (e.id in ids2) {
      var k :| 0 <= k < |catalog| && catalog[k] == e;
      assert Ids(catalog)[k] == e.id;
    }
    SelectExtensional(catalog, id => id in ids1, id => id in ids2);
  }

  /** With unique catalog ids, repeated ids never repeat an event. */
  lemma {:induction false} SelectKeepsIdsUnique(catalog: seq<Event>, keep: string -> bool)
    requires UniqueIds(catalog)
    ensures UniqueIds(Select(catalog, keep))
  {
    if catalog != [] {
      var rest := catalog[1..];
      UniqueTail(catalog);
      SelectKeepsIdsUnique(rest, keep);
      var tail := Select(rest, keep);
      if keep(catalog[0].id) {
        HeadIdNotInTail(catalog, tail);
        ConsUnique(catalog[0], tail);
      }
    }
  }

  lemma UniqueTail(events: seq<Event>)
    requires events != [] && UniqueIds(events)
    ensures UniqueIds(events[1..])
  {
    var rest := events[1..];
    forall i, j | 0 <= i < j < |rest| ensures rest[i].id != rest[j].id {
      assert rest[i] == events[i + 1] && rest[j] == events[j + 1];
    }
  }

  lemma HeadIdNotInTail(events: seq<Event>, tail: seq<Event>)
    requires events != [] && UniqueIds(events)
    requires forall e :: e in tail ==> e in events[1..]
    ensures forall e :: e in tail ==> e.id != events[0].id
  {
    forall e | e in tail ensures e.id != events[0].id {
      var k :| 0 <= k < |events| - 1 && events[1..][k] == e;
      assert e == events[k + 1];
    }
  }

  lemma ConsUnique(x: Event, tail: seq<Event>)
    requires UniqueIds(tail)
    requires forall e :: e in tail ==> e.id != x.id
    ensures UniqueIds([x] + tail)
  {
    var r := [x] + tail;
    forall i, j | 0 <= i < j < |r| ensures r[i].id != r[j].id {
      if i == 0 {
        assert r[j] in tail;
      } else {
        assert r[i] == tail[i - 1] && r[j] == tail[j - 1];
      }
    }
  }

  /** Resolving ids that all exist and reading the ids back gives the same
      set of ids; with unique catalog ids, no id comes back twice. */
  lemma ResolveRoundTrip(catalog: seq<Event>, ids: seq<string>)
    requires forall x :: x in ids ==> x in Ids(catalog)
    ensures forall x :: x in Ids(Resolve(catalog, ids)) <==> x in ids
    ensures UniqueIds(catalog) ==> UniqueIds(Resolve(catalog, ids))
  {
    var r := Resolve(catalog, ids);
    forall x ensures x in Ids(r) <==> x in ids {
      if x in ids {
        var k :| 0 <= k < |catalog| && Ids(catalog)[k] == x;
        assert catalog[k] in r;
        var m :| 0 <= m < |r| && r[m] == catalog[k];
        assert Ids(r)[m] == x;
      }
      if x in Ids(r) {
        var m :| 0 <= m < |r| && Ids(r)[m] == x;
        assert r[m] in r;
      }
    }
    if UniqueIds(catalog) {
      SelectKeepsIdsUnique(catalog, id => id in ids);
    }
  }

  /** Returning every catalog id shows the whole catalog; returning none shows
      nothing. */
  lemma {:induction false} ResolveAllAndNone(catalog: seq<Event>)
    ensures Resolve(catalog, Ids(catalog)) == catalog
    ensures Resolve(catalog, []) == []
  {
    if catalog != [] {
      ResolveAllAndNone(catalog[1..]);
      assert Ids(catalog) == [catalog[0].id] + Ids(catalog[1..]);
      ResolveDependsOnlyOnKnownIds(catalog[1..], Ids(catalog[1..]), Ids(catalog));
      assert Ids(catalog)[0] == catalog[0].id;
    }
  }
}

=== FILE: event_card.dfy ===
/** The text an `EventCard` derives from its event: the venue line with its
    "(+N more)" suffix, the date range and the list of times. Every catalog
    event has at least one show; the card reads `event.shows[0]`. */
module EventCard {
  import opened Text
  import opened Catalog

  /** `hasMoreShows && ` (+${event.shows.length - 1} more)``: empty for a single
      show; otherwise the count of the other shows, which reads back as one
      less than the number of shows. */
  function MoreShowsSuffix(e: Event): (r: string)
    requires |e.shows| >= 1
    ensures r == "" <==> |e.shows| == 1
    ensures r != "" ==> |r| >= 9 && r[..3] == " (+" && r[|r| - 6..] == " more)"
                        && AllDigits(r[3..|r| - 6]) && DecimalValue(r[3..|r| - 6]) + 1 == |e.shows|
  {
    if |e.shows| > 1 then
      var d := Decimal(|e.shows| - 1);
      var r := " (+" + d + " more)";
      assert r[3..|r| - 6] == d;
      DecimalRoundTrip(|e.shows| - 1);
      r
    else ""
  }

  /** The venue line: the first show's venue followed by the "(+N more)"
      suffix, so the line names the number of other shows exactly when there
      are any. */
  function VenueText(e: Event): (r: string)
    requires |e.shows| >= 1
    ensures e.shows[0].venue <= r && r[|e.shows[0].venue|..] == MoreShowsSuffix(e)
    ensures |e.shows| == 1 <==> r == e.shows[0].venue
  {
    e.shows[0].venue + MoreShowsSuffix(e)
  }

  /** The date line: the first show's date and, when there are more shows,
      an en dash and the last show's date. `format` is `formatDate`, whose
      locale-dependent rendering is not modelled. */
  function DateText(e: Event, format: string -> string): string
    requires |e.shows| >= 1
  {
    format(e.shows[0].date)
    + if |e.shows| > 1 then " \U{2013} " + format(e.shows[|e.shows| - 1].date) else ""
  }

  /** The times line: the first show's times separated by a comma and a space
      (`firstShow.times.join(', ')`). */
  function TimesText(e: Event): string
    requires |e.shows| >= 1
  {
    Join(e.shows[0].times, ", ")
  }

  /** Lexicographic order on date strings, which for `YYYY-MM-DD` dates is
      calendar order. */
  predicate DateLe(a: string, b: string)
    decreases |a|
  {
    a == [] || (b != [] && (a[0] < b[0] || (a[0] == b[0] && DateLe(a[1..], b[1..]))))
  }

  lemma {:induction false} DateLeReflexive(a: string)
    ensures DateLe(a, a)
    decreases |a|
  {
    if a != [] { DateLeReflexive(a[1..]); }
  }

  lemma {:induction false} DateLeTransitive(a: string, b: string, c: string)
    requires DateLe(a, b) && DateLe(b, c)
    ensures DateLe(a, c)
    decreases |a|
  {
    if a != [] && a[0] == b[0] && b[0] == c[0] {
      DateLeTransitive(a[1..], b[1..], c[1..]);
    }
  }

  /** Shows listed in date order. */
  predicate InDateOrder(shows: seq<Show>) {
    forall k :: 0 <= k < |shows| - 1 ==> DateLe(shows[k].date, shows[k + 1].date)
  }

  lemma {:induction false} InDateOrderBetween(shows: seq<Show>, i: nat, j: nat)
    requires InDateOrder(shows) && i <= j < |shows|
    ensures DateLe(shows[i].date, shows[j].date)
    decreases j - i
  {
    if i == j {
      DateLeReflexive(shows[i].date);
    } else {
      InDateOrderBetween(shows, i + 1, j);
      DateLeTransitive(shows[i].date, shows[i + 1].date, shows[j].date);
    }
  }

  /** The date line shows only the first date for a single show, and the
      first and last dates otherwise; when the shows are listed in date order
      that range covers every show. */
  lemma DateRangeCoversShows(e: Event, format: string -> string)
    requires |e.shows| >= 1
    ensures |e.shows| == 1 ==> DateText(e, format) == format(e.shows[0].date)
    ensures |e.shows| > 1 ==>
      DateText(e, format) == format(e.shows[0].date) + " \U{2013} " + format(e.shows[|e.shows| - 1].date)
    ensures InDateOrder(e.shows) ==>
      forall k :: 0 <= k < |e.shows| ==>
        DateLe(e.shows[0].date, e.shows[k].date) && DateLe(e.shows[k].date, e.shows[|e.shows| - 1].date)
  {
    if InDateOrder(e.shows) {
      forall k | 0 <= k < |e.shows|
        ensures DateLe(e.shows[0].date, e.shows[k].date) && DateLe(e.shows[k].date, e.shows[|e.shows| - 1].date)
      {
        InDateOrderBetween(e.shows, 0, k);
        InDateOrderBetween(e.shows, k, |e.shows| - 1);
      }
    }
  }

  /** The times line of a show with one more time is the previous line, a
      comma and the new time. */
  lemma TimesTextAppend(e: Event, t: string)
    requires |e.shows| >= 1 && |e.shows[0].times| >= 1
    ensures var more := e.(shows := [e.shows[0].(times := e.shows[0].times + [t])] + e.shows[1..]);
      TimesText(more) == TimesText(e) + ", " + t
  {
    JoinAppend(e.shows[0].times, t, ", ");
  }
}

=== FILE: json.dfy ===
/** JSON values as produced by `JSON.parse` and `Response.json()`. Only the
    shape of a value matters to the model; number values are kept as reals
    and are never inspected. */
module Json {
  import opened Wrappers

  datatype JsonValue =
    | JNull
    | JBool(b: bool)
    | JNumber(n: real)
    | JString(s: string)
    | JArray(items: seq<JsonValue>)
    | JObject(fields: seq<(string, JsonValue)>)

  /** Property read `obj[key]` on a parsed object. `JSON.parse` keeps the LAST
      of several members with the same name, so the lookup runs from the end. */
  function Lookup(fields: seq<(string, JsonValue)>, key: string): Option<JsonValue> {
    if fields == [] then None
    else if fields[|fields| - 1].0 == key then Some(fields[|fields| - 1].1)
    else Lookup(fields[..|fields| - 1], key)
  }

  /** A lookup finds a member exactly when one has the key, and then it is
      the value of the last such member. */
  lemma {:induction false} LookupFindsLastMember(fields: seq<(string, JsonValue)>, key: string)
    ensures Lookup(fields, key).None? <==> forall i :: 0 <= i < |fields| ==> fields[i].0 != key
    ensures Lookup(fields, key).Some? ==>
      exists i :: 0 <= i < |fields| && fields[i] == (key, Lookup(fields, key).value)
                  && forall j :: i < j < |fields| ==> fields[j].0 != key
  {
    if fields != [] && fields[|fields| - 1].0 != key {
      var init := fields[..|fields| - 1];
      LookupFindsLastMember(init, key);
      if Lookup(init, key).Some? {
        var i :| 0 <= i < |init| && init[i] == (key, Lookup(init, key).value)
                 && forall j :: i < j < |init| ==> init[j].0 != key;
        assert fields[i] == init[i];
      }
    }
  }

  /** The member found is the last one with the key. */
  lemma LookupLastMember(fields: seq<(string, JsonValue)>, key: string, i: nat)
    requires i < |fields| && fields[i].0 == key
    requires forall j :: i < j < |fields| ==> fields[j].0 != key
    ensures Lookup(fields, key) == Some(fields[i].1)
  {
    LookupFindsLastMember(fields, key);
    var k :| 0 <= k < |fields| && fields[k] == (key, Lookup(fields, key).value)
             && forall j :: k < j < |fields| ==> fields[j].0 != key;
    assert k == i;
  }

  /** The value is an array whose every element is a string
      (`Array.isArray(v) && v.every((x) => typeof x === 'string')`). */
  predicate IsStringArray(v: JsonValue) {
    v.JArray? && forall k :: 0 <= k < |v.items| ==> v.items[k].JString?
  }

  /** The JSON array whose elements are exactly the given strings, in order. */
  function FromStrings(ids: seq<string>): (v: JsonValue)
    ensures IsStringArray(v) && |v.items| == |ids|
  {
    JArray(seq(|ids|, k requires 0 <= k < |ids| => JString(ids[k])))
  }

  /** The strings held by a string array, in order; the inverse of FromStrings. */
  function StringsOf(v: JsonValue): (ids: seq<string>)
    requires IsStringArray(v)
    ensures FromStrings(ids) == v
  {
    var ids := seq(|v.items|, k requires 0 <= k < |v.items| => v.items[k].s);
    assert FromStrings(ids).items == v.items;
    ids
  }

  lemma StringsOfFromStrings(ids: seq<string>)
    ensures StringsOf(FromStrings(ids)) == ids
  {
  }
}

=== FILE: search_flow.dfy ===
/** The page and the search endpoint together: the page posts the trimmed
    query, the handler answers, and the page resolves the answer against its
    catalog. A failure of the handler (bad request, missing key, file or
    model failure) becomes the page's error; an answer the sanitiser threw
    away becomes the page's empty state, like a genuine zero-match. */
module SearchFlow {
  import opened Wrappers
  import opened Json
  import opened Text
  import opened Catalog
  import opened SearchRoute
  import opened SearchPage

  /** The JSON body `NextResponse.json` sends for a payload. */
  function ResponseJson(p: Payload): JsonValue {
    match p
    case IdsPayload(ids) => JObject([("ids", FromStrings(ids))])
    case ErrorPayload(m) => JObject([("error", JString(m))])
  }

  /** The handler as the page's `fetch` sees it: the page's body
      `{ query }` goes in, the status and decoded JSON body come out. */
  function RouteServer(apiKey: Option<string>, services: Services): string -> FetchOutcome {
    q => var r := Post(Some(QueryBody(q)), apiKey, services).response;
         Fetched(r.status, Some(ResponseJson(r.payload)))
  }

  /** The model answered: the route got through the gate, read the file and
      called the model with the prompt for query `q`. */
  predicate ModelAnswered(q: string, apiKey: Option<string>, services: Services) {
    KeyConfigured(apiKey) && services.eventsFile.Some?
    && services.complete(UserPrompt(q, services.eventsFile.value)).Some?
  }

  /** What the handler answers the page's body for an already trimmed,
      non-empty query. */
  lemma RouteAnswer(t: string, apiKey: Option<string>, services: Services)
    requires t != "" && Trim(t) == t
    ensures var r := Post(Some(QueryBody(t)), apiKey, services).response;
      if ModelAnswered(t, apiKey, services) then
        r == Response(200, IdsPayload(Sanitize(ContentOf(services.complete(UserPrompt(t, services.eventsFile.value)).value),
                                               services.parse)))
      else r.payload.ErrorPayload? && (r.status == 400 || r.status == 500)
  {
    assert !IsBlank(t);
    BlankIffAllWhitespace(t);
    QueryBodyReadsBack(t);
    if !KeyConfigured(apiKey) {
      MissingKeyRejected(QueryBody(t), t, apiKey, services);
    } else if !ModelAnswered(t, apiKey, services) {
      InternalFailures(QueryBody(t), t, apiKey, services);
    } else {
      AnsweredModelYieldsIds(QueryBody(t), t, apiKey, services,
                             services.complete(UserPrompt(t, services.eventsFile.value)).value);
    }
  }

  /** Searching for a non-blank query shows the catalog events named by the
      sanitised model answer when the model answered, and the error
      otherwise; ids the catalog lacks are dropped by the page, not by the
      route. */
  lemma PageAgainstRoute(catalog: seq<Event>, q: string, apiKey: Option<string>, services: Services)
    requires !IsBlank(q)
    ensures ModelAnswered(Trim(q), apiKey, services) ==>
      SearchOutcome(catalog, RouteServer(apiKey, services)(Trim(q)))
      == Some(Resolve(catalog, Sanitize(ContentOf(services.complete(UserPrompt(Trim(q), services.eventsFile.value)).value),
                                        services.parse)))
    ensures !ModelAnswered(Trim(q), apiKey, services) ==>
      SearchOutcome(catalog, RouteServer(apiKey, services)(Trim(q))).None?
  {
    var t := Trim(q);
    TrimIdempotent(q);
    RouteAnswer(t, apiKey, services);
    var r := Post(Some(QueryBody(t)), apiKey, services).response;
    assert RouteServer(apiKey, services)(t) == Fetched(r.status, Some(ResponseJson(r.payload)));
    if ModelAnswered(t, apiKey, services) {
      IdsReplyResolves(catalog, r.payload.ids);
    }
  }

  /** A model answer that is not a string array leaves the page in its empty
      state, not its error state. */
  lemma MalformedAnswerShowsEmptyState(catalog: seq<Event>, q: string, apiKey: Option<string>, services: Services)
    requires !IsBlank(q) && ModelAnswered(Trim(q), apiKey, services)
    requires var content := ContentOf(services.complete(UserPrompt(Trim(q), services.eventsFile.value)).value);
      services.parse(ExtractCandidate(content)).None? || !IsStringArray(services.parse(ExtractCandidate(content)).value)
    ensures SearchOutcome(catalog, RouteServer(apiKey, services)(Trim(q))) == Some([])
  {
    PageAgainstRoute(catalog, q, apiKey, services);
    ResolveAllAndNone(catalog);
  }

  /** A user search from the page against the handler: the page ends up
      showing exactly one of the error (the handler failed), the results or
      the empty state (the model answered). */
  method SearchThroughRoute(page: Page, q: string, apiKey: Option<string>, services: Services)
    requires page.Valid() && !IsBlank(q)
    modifies page`isLoading, page`error, page`hasSearched, page`filteredEvents
    ensures page.Valid() && !page.isLoading && page.hasSearched
    ensures page.ShowsErrorBanner() <==> !ModelAnswered(Trim(q), apiKey, services)
    ensures ModelAnswered(Trim(q), apiKey, services) ==>
      page.filteredEvents == Resolve(page.events, Sanitize(ContentOf(services.complete(UserPrompt(Trim(q), services.eventsFile.value)).value),
                                                           services.parse))
  {
    PageAgainstRoute(page.events, q, apiKey, services);
    page.PerformSearch(q, RouteServer(apiKey, services));
    page.DisplayStates();
  }
}

=== FILE: search_page.dfy ===
/** The search page (`Home`): its state, the `performSearch` state machine,
    what it decodes from the search endpoint's reply, which of results,
    empty state or error it displays, and the voice-input helpers. */
module SearchPage {
  import opened Wrappers
  import opened Json
  import opened Text
  import opened Catalog

  const SearchFailedMessage := "Something went wrong. Please try again."
  const PermissionDeniedMessage := "Microphone permission denied. Please enable it in your browser settings."
  const NoSpeechMessage := "No speech detected. Please try again."
  const MicFailureMessage := "Error accessing microphone. Please try again."

  /** What `fetch('/api/search', ...)` followed by `res.json()` gives: the
      fetch rejects, or a status and the decoded body (None when `res.json()`
      rejects). */
  datatype FetchOutcome = FetchFailed | Fetched(status: int, data: Option<JsonValue>)

  /** The status is a success status in the 200 range (`res.ok`). */
  predicate IsOk(status: int) {
    200 <= status <= 299
  }

  /** `data.ids ?? []` and what `ids.includes(e.id)` then does with it. */
  datatype IdsView =
    | DataNull                        // `data` is null: reading `data.ids` throws
    | IdsList(items: seq<JsonValue>)  // an array: `includes` is element equality
    | IdsText(text: string)           // a string: `includes` is a substring test
    | IdsOther                        // a number, boolean or object: calling `includes` throws

  function IdsOf(data: JsonValue): IdsView {
    match data
    case JNull => DataNull
    case JObject(fields) =>
      (match Lookup(fields, "ids")
       case None => IdsList([])
       case Some(JNull) => IdsList([])
       case Some(JArray(items)) => IdsList(items)
       case Some(JString(t)) => IdsText(t)
       case Some(_) => IdsOther)
    case _ => IdsList([])
  }

  /** The events a finished request leaves in `filteredEvents`, or None when
      the request ends in the `catch` block: the fetch or the body decoding
      rejects, the status is not OK, `data` is null, or `ids` has no
      `includes` and the filter calls it, which it does only when the catalog
      has an event. */
  function SearchOutcome(catalog: seq<Event>, reply: FetchOutcome): (r: Option<seq<Event>>)
    ensures r.Some? ==> IsSubsequence(r.value, catalog)
    ensures r.Some? <==>
      reply.Fetched? && reply.data.Some? && IsOk(reply.status)
      && !IdsOf(reply.data.value).DataNull?
      && (IdsOf(reply.data.value).IdsOther? ==> catalog == [])
  {
    match reply
    case FetchFailed => None
    case Fetched(status, data) =>
      if data.None? || !IsOk(status) then None
      else match IdsOf(data.value)
        case DataNull => None
        case IdsOther => if catalog == [] then Some([]) else None
        case IdsList(items) =>
          SelectIsSubsequence(catalog, id => JString(id) in items);
          Some(Select(catalog, id => JString(id) in items))
        case IdsText(t) =>
          SelectIsSubsequence(catalog, id => Contains(t, id));
          Some(Select(catalog, id => Contains(t, id)))
  }

  /** An OK reply `{ ids }` carrying a string array shows exactly the catalog
      events with those ids, in catalog order. */
  lemma IdsReplyResolves(catalog: seq<Event>, ids: seq<string>)
    ensures SearchOutcome(catalog, Fetched(200, Some(JObject([("ids", FromStrings(ids))]))))
            == Some(Resolve(catalog, ids))
  {
    var items := FromStrings(ids).items;
    forall e | e in catalog ensures (JString(e.id) in items) == (e.id in ids) {
      if e.id in ids {
        var k :| 0 <= k < |ids| && ids[k] == e.id;
        assert items[k] == JString(e.id);
      }
    }
    SelectExtensional(catalog, id => JString(id) in items, id => id in ids);
  }

  /** An OK reply without `ids` (or with `ids: null`) shows no events, and
      is not an error. */
  lemma MissingIdsShowsNothing(catalog: seq<Event>, fields: seq<(string, JsonValue)>)
    requires Lookup(fields, "ids") == None || Lookup(fields, "ids") == Some(JNull)
    ensures SearchOutcome(catalog, Fetched(200, Some(JObject(fields)))) == Some([])
  {
    ResolveAllAndNone(catalog);
    SelectExtensional(catalog, id => JString(id) in [], id => id in []);
  }

  /** A `null` body throws on `data.ids`, whatever the catalog. */
  lemma NullDataFails(catalog: seq<Event>, status: int)
    ensures SearchOutcome(catalog, Fetched(status, Some(JNull))).None?
  {
  }

  /** An `ids` that is neither an array, a string nor null has no `includes`:
      the filter throws on the first event, and an empty catalog is filtered
      without calling it. */
  lemma UnsearchableIdsFailOnlyWithEvents(catalog: seq<Event>, fields: seq<(string, JsonValue)>, i: nat)
    requires i < |fields| && fields[i].0 == "ids"
    requires forall j :: i < j < |fields| ==> fields[j].0 != "ids"
    requires fields[i].1.JNumber? || fields[i].1.JBool? || fields[i].1.JObject?
    ensures SearchOutcome(catalog, Fetched(200, Some(JObject(fields)))) == if catalog == [] then Some([]) else None
  {
    LookupLastMember(fields, "ids", i);
  }

  /** An `ids` that is a string is searched with `String.prototype.includes`:
      the page shows, in catalog order, the events whose id occurs anywhere in
      that string. */
  lemma IdsTextMatchesSubstrings(catalog: seq<Event>, fields: seq<(string, JsonValue)>, t: string)
    requires Lookup(fields, "ids") == Some(JString(t))
    ensures var r := SearchOutcome(catalog, Fetched(200, Some(JObject(fields))));
      r.Some? && IsSubsequence(r.value, catalog)
      && forall e :: e in r.value <==> e in catalog && exists i :: OccursAt(t, e.id, i)
  {
    forall e | e in catalog ensures Contains(t, e.id) <==> exists i :: OccursAt(t, e.id, i) {
      ContainsIffOccurs(t, e.id);
    }
  }

  // ---------------------------------------------------------------------
  // Voice input helpers
  // ---------------------------------------------------------------------

  /** The message `onerror` shows for a recognition error code. */
  function MicErrorMessage(code: string): string {
    if code == "permission-denied" then PermissionDeniedMessage
    else if code == "no-speech" then NoSpeechMessage
    else MicFailureMessage
  }

  /** Permission and silence each have their own message, told apart from
      each other and from the generic one every other code gets. */
  lemma MicErrorMessagesDistinct(code: string)
    ensures MicErrorMessage(code) == PermissionDeniedMessage <==> code == "permission-denied"
    ensures MicErrorMessage(code) == NoSpeechMessage <==> code == "no-speech"
    ensures MicErrorMessage(code) == MicFailureMessage <==> code != "permission-denied" && code != "no-speech"
  {
    assert |PermissionDeniedMessage| == 72 && |NoSpeechMessage| == 37 && |MicFailureMessage| == 45;
  }

  /** The text of the first alternative of every result, each result having
      at least one alternative. */
  function FirstAlternatives(results: seq<seq<string>>): (firsts: seq<string>)
    requires forall k :: 0 <= k < |results| ==> |results[k]| >= 1
    ensures |firsts| == |results|
  {
    seq(|results|, k requires 0 <= k < |results| => results[k][0])
  }

  /** The recognised text: the first alternative of every result, run
      together in order (`Array.from(event.results).map((r) =>
      r[0].transcript).join('')`). */
  function Transcript(results: seq<seq<string>>): string
    requires forall k :: 0 <= k < |results| ==> |results[k]| >= 1
  {
    Join(FirstAlternatives(results), "")
  }

  /** The transcript is the first alternatives run together with nothing
      between them: one more result appends its first alternative. */
  lemma TranscriptConcatenates(results: seq<seq<string>>, last: seq<string>)
    requires forall k :: 0 <= k < |results| ==> |results[k]| >= 1
    requires |last| >= 1
    ensures Transcript(results) == Concat(FirstAlternatives(results))
    ensures Transcript(results + [last]) == Transcript(results) + last[0]
  {
    var more := results + [last];
    JoinEmptySeparatorIsConcat(FirstAlternatives(results));
    JoinEmptySeparatorIsConcat(FirstAlternatives(more));
    assert FirstAlternatives(more)[..|results|] == FirstAlternatives(results);
  }

  /** `Found {n} event{n !== 1 ? 's' : ''}`: the count reads back from the
      label, and the noun is plural exactly when the count is not 1. */
  function CountLabel(n: nat): (r: string)
    ensures |r| >= (if n != 1 then 14 else 13) && r[..6] == "Found "
    ensures r[|r| - 1] == 's' <==> n != 1
    ensures var end := if n != 1 then |r| - 7 else |r| - 6;
      AllDigits(r[6..end]) && DecimalValue(r[6..end]) == n
  {
    var d := Decimal(n);
    var r := "Found " + d + " event" + (if n != 1 then "s" else "");
    assert r[6..6 + |d|] == d;
    DecimalRoundTrip(n);
    r
  }

  // ---------------------------------------------------------------------
  // The page state
  // ---------------------------------------------------------------------

  class Page {
    /** `EVENTS`, the catalog bundled with the page. */
    const events: seq<Event>
    var searchQuery: string
    var filteredEvents: seq<Event>
    var isLoading: bool
    var hasSearched: bool
    /** `error`; None is `null`. */
    var error: Option<string>
    var isListening: bool
    var micError: Option<string>

    /** What the search state machine keeps true between user actions: the
        shown events come from the catalog in catalog order; an error comes
        with no events and only after a search; before the first search
        there is neither. */
    ghost predicate Valid()
      reads this
    {
      IsSubsequence(filteredEvents, events)
      && (error.Some? ==> error.value == SearchFailedMessage && filteredEvents == [] && hasSearched)
      && (!hasSearched ==> error.None? && filteredEvents == [])
    }

    /** The initial `useState` values. */
    constructor (catalog: seq<Event>)
      ensures Valid() && events == catalog
      ensures searchQuery == "" && filteredEvents == [] && !isLoading && !hasSearched
      ensures error == None && !isListening && micError == None
    {
      events := catalog;
      searchQuery := "";
      filteredEvents := [];
      isLoading := false;
      hasSearched := false;
      error := None;
      isListening := false;
      micError := None;
    }

    /** `performSearch` up to the `await`: a blank query changes nothing and
        sends nothing; otherwise the page starts loading, clears the error,
        remembers that a search happened and sends the trimmed query. */
    method BeginSearch(query: string) returns (request: Option<string>)
      requires Valid()
      modifies this`isLoading, this`error, this`hasSearched
      ensures Valid()
      ensures request == if IsBlank(query) then None else Some(Trim(query))
      ensures request.None? ==>
        isLoading == old(isLoading) && error == old(error) && hasSearched == old(hasSearched)
      ensures request.Some? ==> isLoading && error == None && hasSearched
    {
      var trimmed := Trim(query);
      if trimmed == "" {
        return None;
      }
      isLoading := true;
      error := None;
      hasSearched := true;
      request := Some(trimmed);
    }

    /** `performSearch` after the `await`: the `try` block stores the matched
        events, the `catch` block stores the error and clears the events, and
        `finally` stops loading. */
    method CompleteSearch(reply: FetchOutcome)
      requires Valid() && hasSearched && error == None
      modifies this`filteredEvents, this`error, this`isLoading
      ensures Valid() && !isLoading
      ensures SearchOutcome(events, reply).Some? ==>
        filteredEvents == SearchOutcome(events, reply).value && error == None
      ensures SearchOutcome(events, reply).None? ==>
        filteredEvents == [] && error == Some(SearchFailedMessage)
    {
      var outcome := SearchOutcome(events, reply);
      if outcome.Some? {
        filteredEvents := outcome.value;
      } else {
        error := Some(SearchFailedMessage);
        filteredEvents := [];
      }
      isLoading := false;
    }

    /** `performSearch(query)`, with `server` answering the request for the
        trimmed query. After every search that was sent, loading has stopped
        and `hasSearched` is set, whether it succeeded or not. */
    method PerformSearch(query: string, server: string -> FetchOutcome)
      requires Valid()
      modifies this`isLoading, this`error, this`hasSearched, this`filteredEvents
      ensures Valid()
      ensures IsBlank(query) ==>
        isLoading == old(isLoading) && error == old(error)
        && hasSearched == old(hasSearched) && filteredEvents == old(filteredEvents)
      ensures !IsBlank(query) ==> !isLoading && hasSearched
      ensures !IsBlank(query) && SearchOutcome(events, server(Trim(query))).Some? ==>
        filteredEvents == SearchOutcome(events, server(Trim(query))).value && error == None
      ensures !IsBlank(query) && SearchOutcome(events, server(Trim(query))).None? ==>
        filteredEvents == [] && error == Some(SearchFailedMessage)
    {
      var request := BeginSearch(query);
      if request.Some? {
        CompleteSearch(server(request.value));
      }
    }

    /** `handleSubmit`: search for what is in the search box. */
    method Submit(server: string -> FetchOutcome)
      requires Valid()
      modifies this`isLoading, this`error, this`hasSearched, this`filteredEvents
      ensures Valid()
      ensures IsBlank(searchQuery) ==>
        isLoading == old(isLoading) && error == old(error)
        && hasSearched == old(hasSearched) && filteredEvents == old(filteredEvents)
      ensures !IsBlank(searchQuery) ==> !isLoading && hasSearched
      ensures !IsBlank(searchQuery) && SearchOutcome(events, server(Trim(searchQuery))).Some? ==>
        filteredEvents == SearchOutcome(events, server(Trim(searchQuery))).value && error == None
      ensures !IsBlank(searchQuery) && SearchOutcome(events, server(Trim(searchQuery))).None? ==>
        filteredEvents == [] && error == Some(SearchFailedMessage)
    {
      PerformSearch(searchQuery, server);
    }

    /** `onresult`: the transcript goes into the search box and is searched. */
    method OnSpeechResult(results: seq<seq<string>>, server: string -> FetchOutcome)
      requires Valid()
      requires forall k :: 0 <= k < |results| ==> |results[k]| >= 1
      modifies this`searchQuery, this`isLoading, this`error, this`hasSearched, this`filteredEvents
      ensures Valid() && searchQuery == Transcript(results)
      ensures IsBlank(searchQuery) ==>
        isLoading == old(isLoading) && error == old(error)
        && hasSearched == old(hasSearched) && filteredEvents == old(filteredEvents)
      ensures !IsBlank(searchQuery) ==> !isLoading && hasSearched
      ensures !IsBlank(searchQuery) && SearchOutcome(events, server(Trim(searchQuery))).Some? ==>
        filteredEvents == SearchOutcome(events, server(Trim(searchQuery))).value && error == None
      ensures !IsBlank(searchQuery) && SearchOutcome(events, server(Trim(searchQuery))).None? ==>
        filteredEvents == [] && error == Some(SearchFailedMessage)
    {
      searchQuery := Transcript(results);
      PerformSearch(searchQuery, server);
    }

    /** `onerror`: show the message for the code and stop listening. */
    method OnSpeechError(code: string)
      modifies this`micError, this`isListening
      ensures micError == Some(MicErrorMessage(code)) && !isListening
    {
      micError := Some(MicErrorMessage(code));
      isListening := false;
    }

    /** The error banner shows when there is a non-empty error message
        (`{error && ...}`). */
    predicate ShowsErrorBanner()
      reads this
    {
      error.Some? && error.value != ""
    }

    /** The results grid shows after a search with no error and at least one
        matched event (`{hasSearched && !error && filteredEvents.length > 0 && ...}`). */
    predicate ShowsResultsGrid()
      reads this
    {
      hasSearched && !ShowsErrorBanner() && |filteredEvents| > 0
    }

    /** The empty state shows after a search with no error and no matched
        event (`{hasSearched && !error && filteredEvents.length === 0 && ...}`). */
    predicate ShowsEmptyState()
      reads this
    {
      hasSearched && !ShowsErrorBanner() && |filteredEvents| == 0
    }

    /** Results and the empty state never show together, neither shows next
        to an error, nothing shows before the first search, and after a
        search exactly one of error, results and empty state shows. */
    lemma DisplayStates()
      requires Valid()
      ensures !(ShowsResultsGrid() && ShowsEmptyState())
      ensures ShowsErrorBanner() ==> !ShowsResultsGrid() && !ShowsEmptyState()
      ensures !hasSearched ==> !ShowsErrorBanner() && !ShowsResultsGrid() && !ShowsEmptyState()
      ensures hasSearched ==> ShowsErrorBanner() || ShowsResultsGrid() || ShowsEmptyState()
      ensures ShowsErrorBanner() <==> error.Some?
    {
    }
  }
}

=== FILE: search_route.dfy ===
/** The `POST /api/search` handler: the request gate, the call-outs to the
    events file and the chat-completion service, and the sanitiser that turns
    the model's free text into a list of event ids, failing closed to `[]`. */
module SearchRoute {
  import opened Wrappers
  import opened Json
  import opened Text

  const MissingQueryMessage := "Missing \"query\" in request body."
  const MissingKeyMessage := "GROQ_API_KEY is not configured on the server."
  const InternalErrorMessage := "Internal server error."

  // ---------------------------------------------------------------------
  // Bracket extraction: `content.match(/\[.*\]/s)`
  // ---------------------------------------------------------------------

  /** Where the pattern `\[.*\]` (dot matching every character, newlines
      included) can match: an opening bracket at `i` and a closing one at `j`
      somewhere after it. */
  ghost predicate PatternMatch(s: string, i: int, j: int) {
    0 <= i < j < |s| && s[i] == '[' && s[j] == ']'
  }

  /** The match a backtracking regex engine reports: the leftmost start, and
      for that start the longest (greedy) extent. */
  ghost predicate LeftmostGreedyMatch(s: string, i: int, j: int) {
    PatternMatch(s, i, j)
    && (forall i', j' :: PatternMatch(s, i', j') ==> i <= i')
    && (forall j' :: PatternMatch(s, i, j') ==> j' <= j)
  }

  /** Index of the first occurrence of `c`. */
  function FirstIndex(s: string, c: char): (r: Option<nat>)
    ensures r.Some? ==> r.value < |s| && s[r.value] == c
    ensures r.Some? ==> forall k :: 0 <= k < r.value ==> s[k] != c
    ensures r.None? ==> forall k :: 0 <= k < |s| ==> s[k] != c
  {
    if s == [] then None
    else if s[0] == c then Some(0)
    else match FirstIndex(s[1..], c)
      case None => None
      case Some(k) => Some(k + 1)
  }

  /** Index of the last occurrence of `c`. */
  function LastIndex(s: string, c: char): (r: Option<nat>)
    ensures r.Some? ==> r.value < |s| && s[r.value] == c
    ensures r.Some? ==> forall k :: r.value < k < |s| ==> s[k] != c
    ensures r.None? ==> forall k :: 0 <= k < |s| ==> s[k] != c
  {
    if s == [] then None
    else if s[|s| - 1] == c then Some(|s| - 1)
    else LastIndex(s[..|s| - 1], c)
  }

  /** `arrayMatch ? arrayMatch[0] : content`: from the first `[` through the
      last `]` when the first `[` has a `]` after it, else the whole text. */
  function ExtractCandidate(content: string): (r: string)
    ensures |r| <= |content|
  {
    match (FirstIndex(content, '['), LastIndex(content, ']'))
    case (Some(i), Some(j)) => if i < j then content[i..j + 1] else content
    case _ => content
  }

  /** ExtractCandidate is exactly the regex's leftmost-greedy match, and the
      whole text when the pattern does not match anywhere. */
  lemma ExtractCandidateIsRegexMatch(content: string)
    ensures (exists i, j :: PatternMatch(content, i, j)) ==>
      exists i, j :: LeftmostGreedyMatch(content, i, j) && ExtractCandidate(content) == content[i..j + 1]
    ensures (forall i, j :: !PatternMatch(content, i, j)) ==> ExtractCandidate(content) == content
  {
    var fi, la := FirstIndex(content, '['), LastIndex(content, ']');
    if fi.Some? && la.Some? && fi.value < la.value {
      assert LeftmostGreedyMatch(content, fi.value, la.value);
    } else {
      forall i', j' ensures !PatternMatch(content, i', j') {
      }
    }
  }

  /** Model output of the form `prose [ ... ] prose`, with no `[` in the
      leading prose and no `]` in the trailing prose, yields exactly the
      bracketed part, whatever it holds (newlines included). */
  lemma EmbeddedArrayExtracted(prefix: string, body: string, suffix: string)
    requires |body| >= 2 && body[0] == '[' && body[|body| - 1] == ']'
    requires '[' !in prefix && ']' !in suffix
    ensures ExtractCandidate(prefix + body + suffix) == body
  {
    var s := prefix + body + suffix;
    var i, j := |prefix|, |prefix| + |body| - 1;
    forall k | 0 <= k < i ensures s[k] != '[' {
      assert s[k] == prefix[k];
    }
    forall k | j < k < |s| ensures s[k] != ']' {
      assert s[k] == suffix[k - j - 1];
    }
    assert s[i] == '[' && s[j] == ']';
    assert FirstIndex(s, '[') == Some(i);
    assert LastIndex(s, ']') == Some(j);
    assert s[i..j + 1] == body;
  }

  // ---------------------------------------------------------------------
  // The sanitiser
  // ---------------------------------------------------------------------

  /** The ids the handler returns for the model's text `content`. `parse`
      stands for `JSON.parse`: `None` when it throws. The parsed value is
      taken whole if it is an array of strings and replaced by `[]` in every
      other case; nothing escapes to the caller. */
  function Sanitize(content: string, parse: string -> Option<JsonValue>): (ids: seq<string>)
    ensures ids == [] || parse(ExtractCandidate(content)) == Some(FromStrings(ids))
    ensures parse(ExtractCandidate(content)).Some? && IsStringArray(parse(ExtractCandidate(content)).value)
            ==> FromStrings(ids) == parse(ExtractCandidate(content)).value
  {
    match parse(ExtractCandidate(content))
    case Some(v) => if IsStringArray(v) then StringsOf(v) else []
    case None => []
  }

  /** All or nothing: one element that is not a string discards the array. */
  lemma NonStringElementRejected(content: string, parse: string -> Option<JsonValue>, items: seq<JsonValue>, k: nat)
    requires parse(ExtractCandidate(content)) == Some(JArray(items))
    requires k < |items| && !items[k].JString?
    ensures Sanitize(content, parse) == []
  {
    assert !IsStringArray(JArray(items));
  }

  /** Text that does not parse, or parses to anything but an array of
      strings, fails closed to the empty list. */
  lemma FailsClosed(content: string, parse: string -> Option<JsonValue>)
    requires parse(ExtractCandidate(content)).None? || !IsStringArray(parse(ExtractCandidate(content)).value)
    ensures Sanitize(content, parse) == []
  {
  }

  /** Accepted ids come back unchanged: same length, same order, duplicates
      kept, no check against the catalog; a parsed `[]` is accepted as `[]`. */
  lemma AcceptedIdsUnchanged(content: string, parse: string -> Option<JsonValue>, ids: seq<string>)
    requires parse(ExtractCandidate(content)) == Some(FromStrings(ids))
    ensures Sanitize(content, parse) == ids
  {
    StringsOfFromStrings(ids);
  }

  /** Two examples: a quoted array after a chatty preamble is kept, an
      array of bare words (which `JSON.parse` rejects) is not. */
  lemma ChattyPreambleExample(parse: string -> Option<JsonValue>)
    requires parse("[\"m1\",\"c2\"]") == Some(FromStrings(["m1", "c2"]))
    ensures Sanitize("Sure! [\"m1\",\"c2\"]", parse) == ["m1", "c2"]
  {
    assert "Sure! [\"m1\",\"c2\"]" == "Sure! " + "[\"m1\",\"c2\"]" + "";
    EmbeddedArrayExtracted("Sure! ", "[\"m1\",\"c2\"]", "");
    AcceptedIdsUnchanged("Sure! [\"m1\",\"c2\"]", parse, ["m1", "c2"]);
  }

  lemma UnquotedTokensExample(parse: string -> Option<JsonValue>)
    requires parse("[m1, c2]") == None
    ensures Sanitize("I think the answer is [m1, c2]", parse) == []
  {
    assert "I think the answer is [m1, c2]" == "I think the answer is " + "[m1, c2]" + "";
    EmbeddedArrayExtracted("I think the answer is ", "[m1, c2]", "");
  }

  // ---------------------------------------------------------------------
  // The handler
  // ---------------------------------------------------------------------

  /** `completion.choices[i]`: `content` is None when the message or its
      content is missing or null. */
  datatype Choice = Choice(content: Option<string>)
  datatype Completion = Completion(choices: seq<Choice>)

  /** The text of the model's answer: the content of the first choice, or the
      empty string when there is no choice or it has no content
      (`completion.choices[0]?.message?.content ?? ''`). */
  function ContentOf(c: Completion): string {
    if c.choices == [] then "" else c.choices[0].content.GetOr("")
  }

  /** The outside world the handler talks to. `eventsFile` is the text of
      events.json (None when reading it throws); `complete` answers the chat
      request for a user prompt (None when the call throws); `parse` is
      `JSON.parse`. */
  datatype Services = Services(
    eventsFile: Option<string>,
    complete: string -> Option<Completion>,
    parse: string -> Option<JsonValue>)

  datatype Payload = IdsPayload(ids: seq<string>) | ErrorPayload(message: string)
  datatype Response = Response(status: int, payload: Payload)

  /** The external operations a run performed, in order. */
  datatype Effect = ReadEventsFile | ChatCompletion(userPrompt: string)
  datatype Run = Run(response: Response, effects: seq<Effect>)

  /** What `body.query?.trim()` sees. */
  datatype QueryField = NoQuery | QueryText(text: string) | QueryTypeError

  /** Reading `body.query`: `null` as body throws on the property read; an
      object yields its (last) `query` member; other JSON values have no such
      property. A present query that is not a string has no `trim` method, so
      the call throws; `null` is absorbed by `?.`. */
  function QueryOf(body: JsonValue): QueryField {
    match body
    case JNull => QueryTypeError
    case JObject(fields) =>
      (match Lookup(fields, "query")
       case None => NoQuery
       case Some(JNull) => NoQuery
       case Some(JString(q)) => QueryText(q)
       case Some(_) => QueryTypeError)
    case _ => NoQuery
  }

  /** The handler reads the last `query` member of an object body: a string is
      the query, `null` counts as absent, and any other value makes `trim`
      throw. */
  lemma QueryReadsLastMember(fields: seq<(string, JsonValue)>, i: nat)
    requires i < |fields| && fields[i].0 == "query"
    requires forall j :: i < j < |fields| ==> fields[j].0 != "query"
    ensures fields[i].1.JString? ==> QueryOf(JObject(fields)) == QueryText(fields[i].1.s)
    ensures fields[i].1.JNull? ==> QueryOf(JObject(fields)) == NoQuery
    ensures !fields[i].1.JString? && !fields[i].1.JNull? ==> QueryOf(JObject(fields)) == QueryTypeError
  {
    LookupLastMember(fields, "query", i);
  }

  /** `process.env.GROQ_API_KEY` is truthy: set and non-empty. */
  predicate KeyConfigured(apiKey: Option<string>) {
    apiKey.Some? && apiKey.value != ""
  }

  /** The user message sent to the model: the trimmed query and the raw
      events file, under two headings. */
  function UserPrompt(query: string, eventsFile: string): string {
    "\nUser query:\n" + query + "\n\nEvents JSON:\n" + eventsFile + "\n"
  }

  /** The prompt holds the query verbatim after a 13-character heading and the
      file verbatim before the final newline, 15 characters after the query. */
  lemma UserPromptLayout(query: string, eventsFile: string)
    ensures var p := UserPrompt(query, eventsFile);
      |p| == |query| + |eventsFile| + 29
      && p[13..13 + |query|] == query
      && p[28 + |query|..|p| - 1] == eventsFile
  {
  }

  /** For the same events file, different queries give different prompts, and
      for the same query different files do. */
  lemma UserPromptSeparates(q1: string, f1: string, q2: string, f2: string)
    requires q1 == q2 || f1 == f2
    ensures UserPrompt(q1, f1) == UserPrompt(q2, f2) <==> q1 == q2 && f1 == f2
  {
    UserPromptLayout(q1, f1);
    UserPromptLayout(q2, f2);
  }

  function Fail(status: int, message: string, effects: seq<Effect>): Run {
    Run(Response(status, ErrorPayload(message)), effects)
  }

  /** The refusals the handler can give: 400 with the missing-query message,
      or 500 with the configuration or the generic message. */
  predicate IsRefusal(status: int, message: string) {
    (status == 400 && message == MissingQueryMessage)
    || (status == 500 && (message == MissingKeyMessage || message == InternalErrorMessage))
  }

  /** The checks made before any I/O: a body that cannot be read or a query
      that is not a string ends in the outer `catch`; then the query, then
      the key. */
  datatype Gate = Refuse(status: int, message: string) | Admit(query: string)

  function CheckRequest(body: Option<JsonValue>, apiKey: Option<string>): (g: Gate)
    ensures g.Admit? ==> g.query != "" && Trim(g.query) == g.query && KeyConfigured(apiKey)
    ensures g.Refuse? ==> IsRefusal(g.status, g.message)
  {
    match body
    case None => Refuse(500, InternalErrorMessage)
    case Some(b) =>
      match QueryOf(b)
      case QueryTypeError => Refuse(500, InternalErrorMessage)
      case NoQuery => Refuse(400, MissingQueryMessage)
      case QueryText(q) =>
        var query := Trim(q);
        if query == "" then Refuse(400, MissingQueryMessage)
        else if !KeyConfigured(apiKey) then Refuse(500, MissingKeyMessage)
        else
          TrimIdempotent(q);
          Admit(query)
  }

  /** The rest of the handler for an admitted query: read the events file,
      ask the model, sanitise its answer. A failure of either call is the
      generic 500; once the model has answered the reply is a 200. */
  function Answer(query: string, services: Services): (run: Run)
    ensures run.response.status == 200 <==> run.response.payload.IdsPayload?
    ensures run.response.payload.ErrorPayload? ==> run.response == Response(500, ErrorPayload(InternalErrorMessage))
    ensures 1 <= |run.effects| <= 2 && run.effects[0] == ReadEventsFile
    ensures |run.effects| == 2 <==> services.eventsFile.Some?
    ensures |run.effects| == 2 ==> run.effects[1] == ChatCompletion(UserPrompt(query, services.eventsFile.value))
    ensures run.response.status == 200 <==>
      services.eventsFile.Some? && services.complete(UserPrompt(query, services.eventsFile.value)).Some?
  {
    match services.eventsFile
    case None => Fail(500, InternalErrorMessage, [ReadEventsFile])
    case Some(file) =>
      var prompt := UserPrompt(query, file);
      match services.complete(prompt)
      case None => Fail(500, InternalErrorMessage, [ReadEventsFile, ChatCompletion(prompt)])
      case Some(c) =>
        Run(Response(200, IdsPayload(Sanitize(ContentOf(c), services.parse))),
            [ReadEventsFile, ChatCompletion(prompt)])
  }

  /** `POST(req)`. `body` is the result of `req.json()` (None when it throws);
      `apiKey` is the environment variable. */
  function Post(body: Option<JsonValue>, apiKey: Option<string>, services: Services): (run: Run)
    ensures KnownResponse(run.response)
    ensures run.effects == [] <==> CheckRequest(body, apiKey).Refuse?
    ensures run.response.status == 200 ==> |run.effects| == 2
  {
    match CheckRequest(body, apiKey)
    case Refuse(status, message) => Fail(status, message, [])
    case Admit(query) => Answer(query, services)
  }

  /** The body `{ "query": q }` the page sends. */
  function QueryBody(q: string): JsonValue {
    JObject([("query", JString(q))])
  }

  lemma QueryBodyReadsBack(q: string)
    ensures QueryOf(QueryBody(q)) == QueryText(q)
  {
    assert Lookup([("query", JString(q))], "query") == Some(JString(q));
  }

  /** The gate admits exactly a readable body with a string query that is not
      all whitespace, given a configured key, and passes on the trimmed query. */
  lemma GateAdmits(body: Option<JsonValue>, apiKey: Option<string>)
    ensures CheckRequest(body, apiKey).Admit? <==>
      body.Some? && QueryOf(body.value).QueryText? && !AllWhitespace(QueryOf(body.value).text)
      && KeyConfigured(apiKey)
    ensures CheckRequest(body, apiKey).Admit? ==> CheckRequest(body, apiKey).query == Trim(QueryOf(body.value).text)
  {
    if body.Some? && QueryOf(body.value).QueryText? {
      BlankIffAllWhitespace(QueryOf(body.value).text);
    }
  }

  /** A query that is not all whitespace passes the gate, trimmed, once the
      key is configured. */
  lemma QueryAdmitted(body: JsonValue, q: string, apiKey: Option<string>)
    requires QueryOf(body) == QueryText(q) && !AllWhitespace(q) && KeyConfigured(apiKey)
    ensures CheckRequest(Some(body), apiKey) == Admit(Trim(q))
  {
    BlankIffAllWhitespace(q);
  }

  /** An empty or whitespace-only query is a 400, whatever the key and
      whatever else the body holds, and neither the file nor the model is
      touched. */
  lemma BlankQueryRejected(body: JsonValue, q: string, apiKey: Option<string>, services: Services)
    requires QueryOf(body) == QueryText(q) && AllWhitespace(q)
    ensures Post(Some(body), apiKey, services) == Fail(400, MissingQueryMessage, [])
  {
    BlankIffAllWhitespace(q);
  }

  /** A body without a query, or with a `null` one, is the same 400, whatever
      the key, and nothing is read or called. */
  lemma MissingQueryRejected(body: JsonValue, apiKey: Option<string>, services: Services)
    requires QueryOf(body) == NoQuery
    ensures Post(Some(body), apiKey, services) == Fail(400, MissingQueryMessage, [])
  {
  }

  /** A body that is a JSON array, string, number or boolean has no `query`
      property at all. */
  lemma NonObjectBodyHasNoQuery(body: JsonValue)
    requires !body.JObject? && !body.JNull?
    ensures QueryOf(body) == NoQuery
  {
  }

  /** A query that is not a string has no `trim`: the call throws and the
      outer `catch` answers the generic 500, whatever the key, before
      anything is read or called. */
  lemma NonStringQueryFails(body: JsonValue, apiKey: Option<string>, services: Services)
    requires QueryOf(body) == QueryTypeError
    ensures Post(Some(body), apiKey, services) == Fail(500, InternalErrorMessage, [])
  {
  }

  /** The query is checked before the key: with a real query a missing key
      is a 500 and nothing is read or called. */
  lemma MissingKeyRejected(body: JsonValue, q: string, apiKey: Option<string>, services: Services)
    requires QueryOf(body) == QueryText(q) && !AllWhitespace(q) && !KeyConfigured(apiKey)
    ensures Post(Some(body), apiKey, services) == Fail(500, MissingKeyMessage, [])
  {
    BlankIffAllWhitespace(q);
  }

  /** Once the model has answered, the handler answers 200 with the sanitised
      ids: a malformed answer is never an error response. The model saw the
      trimmed query. */
  lemma AnsweredModelYieldsIds(body: JsonValue, q: string, apiKey: Option<string>, services: Services, c: Completion)
    requires QueryOf(body) == QueryText(q) && !AllWhitespace(q) && KeyConfigured(apiKey)
    requires services.eventsFile.Some?
    requires services.complete(UserPrompt(Trim(q), services.eventsFile.value)) == Some(c)
    ensures Post(Some(body), apiKey, services)
            == Run(Response(200, IdsPayload(Sanitize(ContentOf(c), services.parse))),
                   [ReadEventsFile, ChatCompletion(UserPrompt(Trim(q), services.eventsFile.value))])
  {
    QueryAdmitted(body, q, apiKey);
  }

  /** A failure after the gate, reading the events file or calling the
      model, is the fixed generic 500. */
  lemma InternalFailures(body: JsonValue, q: string, apiKey: Option<string>, services: Services)
    requires QueryOf(body) == QueryText(q) && !AllWhitespace(q) && KeyConfigured(apiKey)
    ensures services.eventsFile.None? ==>
      Post(Some(body), apiKey, services) == Fail(500, InternalErrorMessage, [ReadEventsFile])
    ensures services.eventsFile.Some? && services.complete(UserPrompt(Trim(q), services.eventsFile.value)).None? ==>
      Post(Some(body), apiKey, services).response == Response(500, ErrorPayload(InternalErrorMessage))
  {
    QueryAdmitted(body, q, apiKey);
  }

  /** A body that `req.json()` cannot read, or the body `null`, is the same
      generic 500, whatever the key. */
  lemma UnreadableBodyFails(apiKey: Option<string>, services: Services)
    ensures Post(None, apiKey, services) == Fail(500, InternalErrorMessage, [])
    ensures Post(Some(JNull), apiKey, services) == Fail(500, InternalErrorMessage, [])
  {
  }

  /** No choice at all, or a first choice without content, means empty
      content, which `JSON.parse` rejects, so the ids are `[]`. */
  lemma NoChoiceYieldsNoIds(parse: string -> Option<JsonValue>, rest: seq<Choice>)
    requires parse("") == None
    ensures Sanitize(ContentOf(Completion([])), parse) == []
    ensures Sanitize(ContentOf(Completion([Choice(None)] + rest)), parse) == []
  {
  }

  /** Only the first choice is read: the content is its text, and further
      choices never matter. */
  lemma OnlyFirstChoiceCounts(first: Choice, rest1: seq<Choice>, rest2: seq<Choice>)
    ensures ContentOf(Completion([first] + rest1)) == ContentOf(Completion([first] + rest2))
    ensures first.content.Some? ==> ContentOf(Completion([first] + rest1)) == first.content.value
  {
  }

  /** The responses the handler can give: 200 with ids, or one of the
      refusals. Every response of `Post` is one of these. */
  predicate KnownResponse(r: Response) {
    match r.payload
    case IdsPayload(_) => r.status == 200
    case ErrorPayload(m) => IsRefusal(r.status, m)
  }

  /** The order of the external calls (`Post` says when there are any): at
      most two, the events file first, and the model only after the file was
      read, with the prompt built from the trimmed query. */
  lemma EffectsInOrder(body: Option<JsonValue>, apiKey: Option<string>, services: Services)
    ensures var run := Post(body, apiKey, services);
      && |run.effects| <= 2
      && (|run.effects| >= 1 ==> run.effects[0] == ReadEventsFile)
      && (|run.effects| == 2 ==>
            services.eventsFile.Some?
            && run.effects[1] == ChatCompletion(UserPrompt(CheckRequest(body, apiKey).query, services.eventsFile.value)))
  {
  }
}

=== FILE: text.dfy ===
/** String operations of the ECMAScript library that the core relies on:
    `trim`, `join`, `includes` and the decimal rendering of a count. */
module Text {

  /** The characters `String.prototype.trim` removes: the ECMAScript
      WhiteSpace (tab, vertical tab, form feed, space, no-break space, byte
      order mark and every space separator) and LineTerminator (line feed,
      carriage return, line and paragraph separator) code points. */
  const JsWhitespace: set<char> := {
    '\t', '\n', '\U{B}', '\U{C}', '\r', ' ', '\U{A0}', '\U{1680}',
    '\U{2000}', '\U{2001}', '\U{2002}', '\U{2003}', '\U{2004}', '\U{2005}',
    '\U{2006}', '\U{2007}', '\U{2008}', '\U{2009}', '\U{200A}',
    '\U{2028}', '\U{2029}', '\U{202F}', '\U{205F}', '\U{3000}', '\U{FEFF}'
  }

  predicate IsJsWhitespace(c: char) {
    c in JsWhitespace
  }

  predicate AllWhitespace(s: string) {
    forall i :: 0 <= i < |s| ==> IsJsWhitespace(s[i])
  }

  /** Drops the leading whitespace. */
  function TrimStart(s: string): string {
    if s != [] && IsJsWhitespace(s[0]) then TrimStart(s[1..]) else s
  }

  /** Drops the trailing whitespace. */
  function TrimEnd(s: string): string {
    if s != [] && IsJsWhitespace(s[|s| - 1]) then TrimEnd(s[..|s| - 1]) else s
  }

  /** TrimStart leaves a suffix of `s` that does not start with whitespace,
      and only whitespace was dropped. */
  lemma {:induction false} TrimStartIsSuffix(s: string)
    ensures var r := TrimStart(s);
      |r| <= |s| && r == s[|s| - |r|..] && AllWhitespace(s[..|s| - |r|])
      && (r == [] || !IsJsWhitespace(r[0]))
  {
    if s != [] && IsJsWhitespace(s[0]) {
      TrimStartIsSuffix(s[1..]);
      var r := TrimStart(s[1..]);
      assert s[..|s| - |r|] == [s[0]] + s[1..][..|s| - 1 - |r|];
    }
  }

  /** TrimEnd leaves a prefix of `s` that does not end with whitespace, and
      only whitespace was dropped. */
  lemma {:induction false} TrimEndIsPrefix(s: string)
    ensures var r := TrimEnd(s);
      |r| <= |s| && r == s[..|r|] && AllWhitespace(s[|r|..])
      && (r == [] || !IsJsWhitespace(r[|r| - 1]))
  {
    if s != [] && IsJsWhitespace(s[|s| - 1]) {
      TrimEndIsPrefix(s[..|s| - 1]);
      var r := TrimEnd(s[..|s| - 1]);
      assert s[|r|..] == s[..|s| - 1][|r|..] + [s[|s| - 1]];
    }
  }

  /** `String.prototype.trim`: whitespace dropped at both ends. */
  function Trim(s: string): string {
    TrimEnd(TrimStart(s))
  }

  lemma SliceOfSuffix(s: string, i: nat, n: nat)
    requires i + n <= |s|
    ensures s[i..][..n] == s[i..i + n] && s[i..][n..] == s[i + n..]
  {
  }

  /** The trimmed string is the slice of the original that starts after the
      leading whitespace, and only whitespace is cut off on either side. */
  lemma TrimIsSlice(s: string)
    ensures var i := |s| - |TrimStart(s)|;
      0 <= i && i + |Trim(s)| <= |s| && Trim(s) == s[i..i + |Trim(s)|]
      && AllWhitespace(s[..i]) && AllWhitespace(s[i + |Trim(s)|..])
  {
    TrimStartIsSuffix(s);
    var t := TrimStart(s);
    TrimEndIsPrefix(t);
    SliceOfSuffix(s, |s| - |t|, |TrimEnd(t)|);
  }

  /** What trimming leaves neither starts nor ends with whitespace. */
  lemma TrimEndsNotWhitespace(s: string)
    ensures Trim(s) == [] || (!IsJsWhitespace(Trim(s)[0]) && !IsJsWhitespace(Trim(s)[|Trim(s)| - 1]))
  {
    TrimStartIsSuffix(s);
    var t := TrimStart(s);
    TrimEndIsPrefix(t);
    var r := TrimEnd(t);
    assert r != [] ==> r[0] == t[0];
  }

  /** `!s.trim()`: the string is empty once trimmed. */
  predicate IsBlank(s: string) {
    Trim(s) == []
  }

  /** Trimming leaves nothing exactly when every character is whitespace. */
  lemma BlankIffAllWhitespace(s: string)
    ensures IsBlank(s) <==> AllWhitespace(s)
  {
    TrimIsSlice(s);
    TrimEndsNotWhitespace(s);
    var r := Trim(s);
    var i := |s| - |TrimStart(s)|;
    if r == [] {
      assert s == s[..i] + s[i..];
      assert s[i..] == s[i + |r|..];
    } else {
      assert s[i] == r[0];
    }
  }

  /** Trimming twice is trimming once. */
  lemma TrimIdempotent(s: string)
    ensures Trim(Trim(s)) == Trim(s)
  {
    TrimEndsNotWhitespace(s);
    var r := Trim(s);
    if r != [] {
      assert TrimStart(r) == r;
      assert TrimEnd(r) == r;
    }
  }

  /** A trimmed string that is not empty is not blank. */
  lemma TrimmedNonEmptyIsNotBlank(s: string)
    requires Trim(s) != []
    ensures !IsBlank(Trim(s))
  {
    TrimIdempotent(s);
  }

  predicate IsDigit(c: char) {
    '0' <= c <= '9'
  }

  predicate AllDigits(s: string) {
    forall i :: 0 <= i < |s| ==> IsDigit(s[i])
  }

  function DigitChar(d: nat): (c: char)
    requires d < 10
    ensures IsDigit(c) && c as int - '0' as int == d
  {
    ['0', '1', '2', '3', '4', '5', '6', '7', '8', '9'][d]
  }

  /** The decimal text JavaScript produces when a non-negative integer is
      interpolated into a string or JSX. */
  function Decimal(n: nat): (r: string)
    ensures |r| >= 1 && AllDigits(r)
  {
    if n < 10 then [DigitChar(n)] else Decimal(n / 10) + [DigitChar(n % 10)]
  }

  /** The number a string of decimal digits denotes. */
  function DecimalValue(s: string): nat
    requires AllDigits(s)
  {
    if s == [] then 0
    else 10 * DecimalValue(s[..|s| - 1]) + (s[|s| - 1] as int - '0' as int)
  }

  /** Reading the rendered digits back gives the number. */
  lemma {:induction false} DecimalRoundTrip(n: nat)
    ensures DecimalValue(Decimal(n)) == n
  {
    if n >= 10 {
      DecimalRoundTrip(n / 10);
      var r := Decimal(n);
      assert r[..|r| - 1] == Decimal(n / 10);
    }
  }

  /** `Array.prototype.join(sep)` on an array of strings. */
  function Join(xs: seq<string>, sep: string): string {
    if xs == [] then ""
    else if |xs| == 1 then xs[0]
    else xs[0] + sep + Join(xs[1..], sep)
  }

  /** The plain concatenation of the strings, built from the left. */
  function Concat(xs: seq<string>): string {
    if xs == [] then "" else Concat(xs[..|xs| - 1]) + xs[|xs| - 1]
  }

  /** Joining one more element appends the separator and that element. */
  lemma {:induction false} JoinAppend(xs: seq<string>, x: string, sep: string)
    requires xs != []
    ensures Join(xs + [x], sep) == Join(xs, sep) + sep + x
  {
    if |xs| > 1 {
      assert (xs + [x])[1..] == xs[1..] + [x];
      JoinAppend(xs[1..], x, sep);
    }
  }

  /** Joining with the empty separator is concatenation. */
  lemma {:induction false} JoinEmptySeparatorIsConcat(xs: seq<string>)
    ensures Join(xs, "") == Concat(xs)
  {
    if |xs| > 1 {
      var init := xs[..|xs| - 1];
      JoinEmptySeparatorIsConcat(init);
      JoinAppend(init, xs[|xs| - 1], "");
      assert init + [xs[|xs| - 1]] == xs;
    } else if |xs| == 1 {
      assert xs[..0] == [];
    }
  }

  /** `hay.includes(needle)` on strings: `needle` occurs somewhere in `hay`. */
  predicate Contains(hay: string, needle: string)
    decreases |hay|
  {
    needle <= hay || (hay != [] && Contains(hay[1..], needle))
  }

  /** `needle` occurs in `hay` starting at index `i`. */
  predicate OccursAt(hay: string, needle: string, i: int) {
    0 <= i && i + |needle| <= |hay| && hay[i..i + |needle|] == needle
  }

  /** `Contains` is the substring test: `needle` occurs at some index of `hay`. */
  lemma {:induction false} ContainsIffOccurs(hay: string, needle: string)
    ensures Contains(hay, needle) <==> exists i :: OccursAt(hay, needle, i)
    decreases |hay|
  {
    if needle <= hay {
      assert OccursAt(hay, needle, 0);
    } else if hay != [] {
      ContainsIffOccurs(hay[1..], needle);
      if i :| OccursAt(hay, needle, i) {
        assert i != 0;
        assert OccursAt(hay[1..], needle, i - 1) by {
          assert hay[1..][i - 1..i - 1 + |needle|] == hay[i..i + |needle|];
        }
      }
      if i :| OccursAt(hay[1..], needle, i) {
        assert OccursAt(hay, needle, i + 1) by {
          assert hay[1..][i..i + |needle|] == hay[i + 1..i + 1 + |needle|];
        }
      }
    } else {
      forall i ensures !OccursAt(hay, needle, i) {
      }
    }
  }
}

=== FILE: wrappers.dfy ===
/** The optional value used wherever the source has `undefined`, `null` or a
    call that may throw. */
module Wrappers {

  datatype Option<+T> = None | Some(value: T) {

    /** The value if present, `default` otherwise (the `??` operator). */
    function GetOr(default: T): T {
      match this
      case Some(v) => v
      case None => default
    }
  }
}
